=== FILE: README.md ===
# Thrift-and-Thrive storefront: a Dafny model of its table-level state machine

Thrift-and-Thrive is a small second-hand storefront written as one Flask
application (`app.py`). Users register and log in. They list items for sale,
keep shipping addresses, fill a cart and check it out into a purchase event.
Administrators generate CSV sales reports and purge tables. Every request
handler is a short, sequential read-modify-write over a few SQLite tables.

This project models those tables and handlers.

- **Records** (`records.dfy`) has one datatype per table row and a `Db`
  snapshot of all tables. It also has the two query behaviours every handler
  relies on:
  - `.first()` / `.get()` returns the first matching row in table order.
  - SQLite's id for a new row is one more than the largest id in use, or 1 for
    an empty table.
- **Carts** (`carts.dfy`) covers the cart queries and bulk deletes. It also
  covers the invariant the application keeps by hand: at most one cart line per
  (user, product).
- **Orders** (`orders.dfy`) describes what a committed `confirm_purchase` does
  to the tables, as the function `Checkout`. It proves that the cart is moved
  and not copied, and that other users' carts are left alone.
- **Reports** (`reports.dfy`) covers `generate_report`:
  - the date-range selection;
  - the CSV rows, as a specification function (`CsvRows`) and as the source's
    nested loops (`WriteRows`);
  - where each row sits and what it carries.
- **Details** (`details.dfy`) covers `purchase_details` and its agreement with
  the checkout that created the event.
- **Access** (`access.dfy`) covers the `admin_required` gate and the
  `toggle_admin` flip.
- **Shop** (`shop.dfy`) defines the class `Store`. It has one `seq` field per
  table and the session's `user_id`.
  - Each handler is a method. It returns the outcome the handler reports and
    states the whole new state as a function of the old one.
  - The class invariant `Valid` holds: unique user ids and emails, at most one
    cart line per (user, product), and every purchase line under an existing
    event.
- **Scenario** (`scenario.dfy`) is a concrete run. Alice lists a "Red Jacket",
  Bob carts it, adds an address and checks out. The purchase details then show
  one item, quantity 1, going to Bob's address.

Modelling choices:

- Times are integer microsecond ticks, and day d starts at
  `d * TicksPerDay`. Days are proleptic Gregorian ordinals, so 9999-12-31,
  the last day a `datetime` holds, is `MaxDay`. The clock is a parameter.
- A date argument is `Absent`, `Unparsable` or `Day(ordinal)`. The model does
  not parse text.
- A row lookup that would dereference a missing row makes the handler raise,
  which gives a 500 and commits nothing. `generate_report` and
  `purchase_details` return `None` / `Crashed` in that case.
- bcrypt is outside the model:
  - `Register` takes the hash as a parameter.
  - `Login` takes the hash check as a function parameter.
- The CSV file, the report path's timestamp and the address string are
  modelled as values: `ReportRow`, a `stamp` string and `AddressText`.

Three points where the code does something other than what a reader might
expect:

- `delete_address` on an address that a purchase event still references does
  not leave a dangling reference. SQLAlchemy nulls the event's `address_id`,
  which is declared NOT NULL, so the commit raises. The model follows the code:
  `DeleteAddress` answers `ServerError` and changes nothing.
- `generate_report` with `to_date` 9999-12-31 adds one day past the largest
  `datetime`. That raises `OverflowError`, which the handler's
  `except ValueError` does not catch, so the request is a 500 and no report is
  recorded. `ParseWindow` gives `Overflow` there and `GenerateReport` answers
  `ServerError`.
- Cart quantities are never checked to be at least 1. `UpdateItem` stores any
  integer it is given that fits SQLite's 64-bit INTEGER (see "## Left out").

## Model

| member | source | states |
|---|---|---|
| Records.First | app.py:313-314 | the index found is the first row satisfying the filter; None exactly when no row does |
| Records.UserIndex | app.py:515 | `User.query.get`: a row with that id, or None exactly when no row has it |
| Records.UserIndexByEmail | app.py:243 | a row with that email, or None exactly when no row has it |
| Records.AddressIndex | app.py:180 | a row with that id, or None (the 404 of `get_or_404`) exactly when none has it |
| Records.ProductIndex | app.py:589 | the product a line points at, or None exactly when it no longer exists |
| Records.EventIndex | app.py:458 | a purchase event with that id, or None exactly when none has it |
| Records.ReportIndex | app.py:653 | a report row with that id, or None exactly when none has it |
| Records.NextId | app.py:29 | a new primary key is at least 1, above every id in use, and is 1 or one more than some id in use |
| Carts.LineCount | app.py:313-316 | zero exactly when (user, product) has no cart line |
| Carts.LineIndex | app.py:395-397 | the first line of (user, product); None exactly when there is none |
| Carts.UserLines | app.py:434 | the lines kept are exactly the user's lines |
| Carts.OtherUsersLines | app.py:445 | the lines kept are exactly the other users' lines |
| Carts.WithoutLine | app.py:388 | the lines kept are exactly those not of (user, product) |
| Carts.WithoutProducts | app.py:709-710 | the lines kept are exactly those whose product id is not in the set |
| Carts.LineCountAppend | app.py:319-323 | appending a line adds one to its own pair's count and nothing to any other |
| Carts.AddLineKeepsOneLine | app.py:313-323 | inserting only when the pair has no line keeps at most one line per pair, and the pair ends with exactly one |
| Carts.SetQuantityKeepsCounts | app.py:395-398 | setting a line's quantity changes no pair's line count |
| Carts.SetQuantityKeepsOneLine | app.py:395-398 | setting a quantity keeps at most one line per pair |
| Carts.OtherUsersLinesCount | app.py:445 | clearing a user's cart leaves that user no line and every other pair its count |
| Carts.WithoutLineCount | app.py:388 | removing a pair's lines leaves it none and every other pair its count |
| Carts.WithoutProductsCount | app.py:705-710 | removing the lines of some products leaves those products no line and every other pair its count |
| Carts.DeletesKeepOneLine | app.py:388 | each of the three bulk cart deletes (this one, the checkout clear at app.py:445 and the product purge at app.py:709-710) keeps at most one line per pair |
| Carts.SplitByUser | app.py:434-445 | a user's lines and everybody else's lines are together exactly the cart (as a multiset and by count) |
| Carts.NoLinesLeft | app.py:445 | after clearing a user's lines, that user has none |
| Carts.OtherUserUntouched | app.py:445 | clearing one user's lines leaves another user's lines identical, in order |
| Carts.TotalItems | app.py:337-343 | when every line of the user has its product, the count is the sum of the user's line quantities; a user with no lines counts zero |
| Carts.Joined | app.py:338-340 | the inner join keeps exactly the lines whose product still exists |
| Carts.TotalItemsIsJoinedSum | app.py:337-343 | `total_items` is the sum of the quantities of the user's lines that survive the join, so a line whose product is gone counts nothing |
| Carts.TotalItemsAfterClear | app.py:337-343 | after checkout clears the cart, the cart page counts zero items |
| Carts.TotalItemsAfterAdd | app.py:337-343 | adding a line of quantity 1 raises the item count by one exactly when its product exists (inner join) |
| Orders.CopiedLinesFields | app.py:436-442 | one purchase line per cart line, under the event, with that line's product and quantity, and with increasing distinct ids |
| Orders.StageLines | app.py:436-442 | the loop stages one purchase line per cart line, in order, with the line's product and quantity under the event |
| Orders.Checkout | app.py:427-447 | a commit adds one event with the user, address and time and a fresh id, and adds one purchase per user cart line pointing at it; the user's cart lines are removed and the other tables are unchanged |
| Orders.CopiedQuantity | app.py:436-442 | the quantities bought sum to the quantities that were in the cart |
| Orders.CheckoutMovesCart | app.py:434-447 | cart lines before = lines left + purchase lines added; the quantity is conserved; the user's cart is empty; a second checkout adds no purchase line |
| Orders.CheckoutLeavesOthers | app.py:445 | other users' cart lines are unchanged, and the buyer's cart page shows zero items |
| Orders.EmptyCartCheckout | app.py:429-442 | with an empty cart a checkout still adds an event, with no purchase lines and no cart change |
| Orders.NoUserLines | app.py:434-445 | a cart with no line of the user yields no user lines and loses nothing when the user's lines are cleared |
| Reports.ParseWindow | app.py:541-548 | a missing date gives no window; an unparsable one (both given) an invalid-date error; a `to_date` of 9999-12-31 an overflow; otherwise the window runs from midnight of `from_date` to midnight after `to_date`, covering whole days |
| Reports.Selected | app.py:541-556 | no window selects nothing; a window selects exactly the events whose date falls in it |
| Reports.EventsBetween | app.py:551-554 | exactly the events with `from <= purchase_date < until` |
| Reports.SelectionRule | app.py:541-556 | a missing date selects nothing; an unparsable one (both given) is an error; a `to_date` of 9999-12-31 overflows; two other days select exactly the events from the start of `from_date` to before the start of the day after `to_date` |
| Reports.ToDateInclusive | app.py:544-545 | every event on any day from `from_date` through `to_date` is selected |
| Reports.PurchasesOfMembers | app.py:81 | an event's lines are exactly the purchase rows pointing at it |
| Reports.ProductName | app.py:589 | a line whose product exists is named after the product row the lookup finds |
| Reports.LineRows | app.py:583-592 | one row per purchase line, in order, each built from the line |
| Reports.CsvRows | app.py:564-592 | rows exist exactly when every selected event's buyer, address and products exist; then there are 1 + (number of lines) rows and the first is the 7-column header |
| Reports.ReportRowsAppend | app.py:574-592 | the rows of two selections one after the other are the rows of the first followed by the rows of the second |
| Reports.RowCount | app.py:574-592 | one data row per (selected event, purchase line) pair: the number of data rows is the sum of the selected events' line counts |
| Reports.RowPosition | app.py:574-592 | line j of the i-th event is the data row right after the lines of the events before it (event order, then line order) |
| Reports.RowAt | app.py:574-592 | that row carries all seven columns: the email of the user row the lookup finds, the event's user id, event id, address and date, and the line's product name and quantity |
| Reports.NoProductsNoReport | app.py:705-710 | once the product table is empty, a report that selects any event with a purchase line yields no rows |
| Reports.WriteLineRows | app.py:583-592 | the inner loop writes `LineRows` exactly when every line's product exists |
| Reports.WriteEventRows | app.py:574-592 | the outer loop body writes the event's rows exactly when its buyer, address and products exist |
| Reports.WriteDataRows | app.py:574-592 | the outer loop writes the data rows exactly when every selected event resolves |
| Reports.WriteRows | app.py:564-592 | the written CSV is `CsvRows` |
| Details.Items | app.py:475-481 | one item per purchase line with its product id and quantity, named after the product row the lookup finds when there is one |
| Details.PurchaseDetails | app.py:456-484 | 404 exactly when no event has the id; 200 exactly when the event's address and all its lines' products exist, echoing event id, user id and date, the address's five fields and phone number, and `Items` of the event's lines; 500 otherwise |
| Details.NoProductsNoDetails | app.py:705-710 | once the product table is empty, details of an existing event with a line are a 500 |
| Details.PurchasesOfAppend | app.py:81 | an event's lines in two tables appended are its lines in each, appended |
| Details.PurchasesOfNone | app.py:81 | no line pointing at the event gives an empty list |
| Details.PurchasesOfAll | app.py:81 | lines all pointing at the event are all its lines |
| Details.CheckoutKeepsEvents | app.py:427-447 | after a checkout every purchase line still points at an existing event |
| Details.CheckoutThenDetails | app.py:427-447 | the new event's lines are the user's former cart lines: same products and quantities, same order, nothing else |
| Access.IsAdmin | app.py:511-520 | passing the gate means the session names an existing admin user; with unique ids, such a user always passes |
| Access.ToggledAt | app.py:742-745 | only that row's admin flag flips; ids, emails and hashes are unchanged |
| Access.ToggleKeepsKeys | app.py:742-745 | toggling keeps user ids and emails unique |
| Access.ToggleTwice | app.py:742-745 | toggling twice restores the table |
| Access.ToggleFlipsGate | app.py:733-751 | toggling flips whether that user passes the admin gate, so any logged-in user can make themselves admin |
| Shop.ReportPath | app.py:558-560 | the path is `reports/user_purchases_report_`, the timestamp, then `.csv`, so distinct timestamps give distinct paths |
| Shop.Store.constructor | app.py:105-106 | an empty database and no session |
| Shop.Store.Register | app.py:228-256 | a mismatched confirmation or a registered email adds nobody; otherwise exactly one non-admin user with that email and hash and a fresh id is added and logged in |
| Shop.Store.Login | app.py:210-225 | succeeds exactly when a user with that email has a matching hash, logging that user in; the tables never change |
| Shop.Store.Logout | app.py:259-263 | the session is cleared and the tables are unchanged |
| Shop.Store.AddAddress | app.py:140-171 | needs a session; a missing required field adds nothing; a session user without a row raises; otherwise exactly one address is appended for the session user |
| Shop.Store.DeleteAddress | app.py:174-189 | needs a session; 404 exactly for an unknown id; 403 exactly when the session user exists and does not own it; success exactly when the session user exists, owns it and no event uses it, and then exactly that address is removed; every other case (missing session user, address in use) is a 500 that changes nothing |
| Shop.Store.SellProduct | app.py:266-302 | needs a session and an image; then exactly one product is appended under the session's user id |
| Shop.Store.AddToCart | app.py:305-327 | an existing (user, product) line leaves the store unchanged; otherwise one line of quantity 1 is appended and the pair has exactly one line |
| Shop.Store.UpdateItem | app.py:376-402 | "remove" deletes exactly the pair's lines; "update" sets the first matching line's quantity or does nothing when there is none; any other action does nothing |
| Shop.Store.ConfirmPurchase | app.py:419-453 | 401 with no session; no address or a failed commit changes nothing; otherwise the new state is `Checkout` of the old one and the reply carries the new event's id |
| Shop.Store.GenerateReport | app.py:533-601 | only admins pass; an unparsable date, a `to_date` of 9999-12-31 (one day later overflows) or a dangling reference records nothing; otherwise the CSV is `CsvRows` of the selection and exactly one Report row is appended |
| Shop.Store.DeleteReport | app.py:650-663 | admin only; unknown id changes nothing; otherwise exactly that report row is removed |
| Shop.Store.DeleteAllReports | app.py:632-647 | admin only; the loop leaves the report table empty and everything else unchanged |
| Shop.Store.DeleteAllProducts | app.py:702-716 | admin only; the product table is emptied and exactly the cart lines of the deleted products are removed; purchase lines are kept |
| Shop.Store.DeleteAllPurchases | app.py:719-730 | admin only; purchase lines and events are emptied and nothing else changes |
| Shop.Store.ToggleAdmin | app.py:733-751 | needs a session and an existing user; flips exactly that user's flag, which flips whether the session passes the admin gate |
| Scenario.BobFillsCart | app.py:228-327 | registering Alice, listing the jacket, registering Bob, carting it and adding his address gives exactly the expected tables |
| Scenario.AliceSellsBobBuys | app.py:419-484 | Bob's checkout is a 200 giving event 1, whose details (also a 200) list one "Red Jacket" of quantity 1 going to Bob's address |
| Scenario.BobChecksOut | app.py:427-447 | the checkout of that cart gives event 1, purchase line 1 and an empty cart |
| Scenario.BobsDetails | app.py:456-484 | the details of that event are exactly the expected reply |

## Left out

- Flask routing, templates, flash messages, redirect targets and JSON
  formatting are not modelled. Each handler's outcome is a `Status` or
  `Response` value.
- The read-only pages are not modelled: `home`, `about`, `contact`,
  `profile`, `shop`, `cart`, `checkout`, `thank_you`, `admin`,
  `inject_user_data` and the cache-control hook. Only the cart page's integer
  `total_items` is modelled, as `Carts.TotalItems`.
- bcrypt hashing and checking is a foreign library. Both are parameters.
- Files on disk are not modelled:
  - saving an uploaded image;
  - writing the CSV file and `os.makedirs`;
  - `view_report`, `download_report`;
  - removing report files in `delete_report` and `delete_all_reports`.
  The CSV is the returned row sequence, and a partly written file after a
  failure is not modelled.
- `secure_filename` is not modelled: the image name is stored as given.
- Floating-point prices and ratings, and the rounded `total_price`, are not
  modelled.
- Date parsing, `strftime` rendering of dates and timestamps, and the exact
  address string (with the whitespace its line continuations embed) are
  values, not text.
- `add_sample_products` is not modelled, because it uses Faker and `random`.
- `add_sample_address` is not modelled: it is a sample-data helper outside the
  storefront's flows that inserts one fixed address for user id 1, whoever is
  logged in.
- Form values of the wrong kind are not modelled:
  - a missing `product_id` or action in `updateitem`;
  - a non-integer quantity, which would store NULL;
  - a non-JSON body in `confirm_purchase`;
  - a missing `image` file field.
  Ids and quantities are integers.
- Shop.Store.ConfirmPurchase: `commitFails` stands for every database failure
  other than the missing `address_id`. Foreign keys are not enforced by
  SQLite's default settings, so an unknown user or address id commits.
- Ids and quantities are assumed to fit SQLite's 64-bit INTEGER. A URL id of
  2^63 or more in `add_to_cart`, `delete_address`, `delete_report` or
  `purchase_details`, or such a quantity in `updateitem`, makes sqlite3 raise
  `OverflowError`, giving a 500 that commits nothing; the model's ids and
  quantities are unbounded integers and treat such a value like any other.
- Concurrent requests and SQLAlchemy's session identity map are not modelled.
  Each method is one whole request.

=== FILE: access.dfy ===
/** Who may do what: the `admin_required` gate and the `toggle_admin` flip it
    depends on. */
module Access {
  import opened Records

  /** `admin_required`: the session names a user, `User.query.get` finds it, and
      that user is an admin. `get(None)` finds nobody. */
  function IsAdmin(users: seq<User>, session: Option<int>): (r: bool)
    ensures r ==> session.Some? && exists k :: 0 <= k < |users| && users[k].id == session.value && users[k].isAdmin
    ensures UniqueUserIds(users) && session.Some? ==>
      (r <== exists k :: 0 <= k < |users| && users[k].id == session.value && users[k].isAdmin)
  {
    match session
    case None => false
    case Some(id) =>
      match UserIndex(users, id)
      case Some(k) => users[k].isAdmin
      case None => false
  }

  /** The user table after `toggle_admin` flips the flag of the row at index `k`. */
  function ToggledAt(users: seq<User>, k: nat): (r: seq<User>)
    requires k < |users|
    ensures |r| == |users| && r[k].isAdmin == !users[k].isAdmin
    ensures forall i :: 0 <= i < |users| ==>
              r[i].id == users[i].id && r[i].email == users[i].email && r[i].password == users[i].password
    ensures forall i :: 0 <= i < |users| && i != k ==> r[i] == users[i]
  {
    users[k := users[k].(isAdmin := !users[k].isAdmin)]
  }

  /** Toggling keeps the user table's keys: ids and emails stay unique. */
  lemma ToggleKeepsKeys(users: seq<User>, k: nat)
    requires k < |users|
    requires UniqueUserIds(users) && UniqueEmails(users)
    ensures UniqueUserIds(ToggledAt(users, k)) && UniqueEmails(ToggledAt(users, k))
  {
  }

  /** Toggling twice restores the table. */
  lemma ToggleTwice(users: seq<User>, k: nat)
    requires k < |users|
    ensures ToggledAt(ToggledAt(users, k), k) == users
  {
    assert ToggledAt(ToggledAt(users, k), k)[k] == users[k];
  }

  /** `toggle_admin` itself is not gated: any logged-in user whose row exists
      and is not an admin passes the admin gate right after toggling, and an
      admin stops passing it. */
  lemma ToggleFlipsGate(users: seq<User>, id: int)
    requires UniqueUserIds(users)
    requires UserIndex(users, id).Some?
    ensures var k := UserIndex(users, id).value;
      IsAdmin(ToggledAt(users, k), Some(id)) == !IsAdmin(users, Some(id))
  {
    var k := UserIndex(users, id).value;
    var users' := ToggledAt(users, k);
    assert UniqueUserIds(users');
    assert users'[k].id == id;
  }
}

=== FILE: carts.dfy ===
/** Queries and bulk deletes over the cart table, and the invariant the
    application keeps by hand: at most one line per (user, product). */
module Carts {
  import opened Records

  predicate IsLine(c: Cart, userId: int, productId: int) {
    c.userId == userId && c.productId == productId
  }

  /** How many cart lines (user, product) has. */
  function LineCount(carts: seq<Cart>, userId: int, productId: int): (r: nat)
    ensures r <= |carts|
    ensures r == 0 <==> forall i :: 0 <= i < |carts| ==> !IsLine(carts[i], userId, productId)
  {
    if carts == [] then 0
    else (if IsLine(carts[0], userId, productId) then 1 else 0) + LineCount(carts[1..], userId, productId)
  }

  /** The uniqueness `add_to_cart` enforces by checking before it inserts. */
  ghost predicate AtMostOneLine(carts: seq<Cart>) {
    forall u, p :: LineCount(carts, u, p) <= 1
  }

  /** `Cart.query.filter_by(user_id=u, product_id=p).first()`. */
  function LineIndex(carts: seq<Cart>, userId: int, productId: int): (r: Option<nat>)
    ensures r.Some? ==> r.value < |carts| && IsLine(carts[r.value], userId, productId)
    ensures r.Some? ==> forall j :: 0 <= j < r.value ==> !IsLine(carts[j], userId, productId)
    ensures r.None? <==> LineCount(carts, userId, productId) == 0
  {
    First(carts, (c: Cart) => IsLine(c, userId, productId))
  }

  /** `Cart.query.filter_by(user_id=u).all()`: the user's lines, in table order. */
  function UserLines(carts: seq<Cart>, userId: int): (r: seq<Cart>)
    ensures forall c :: c in r <==> c in carts && c.userId == userId
  {
    if carts == [] then []
    else if carts[0].userId == userId then [carts[0]] + UserLines(carts[1..], userId)
    else UserLines(carts[1..], userId)
  }

  /** What `Cart.query.filter_by(user_id=u).delete()` leaves: every other user's lines. */
  function OtherUsersLines(carts: seq<Cart>, userId: int): (r: seq<Cart>)
    ensures forall c :: c in r <==> c in carts && c.userId != userId
  {
    if carts == [] then []
    else if carts[0].userId != userId then [carts[0]] + OtherUsersLines(carts[1..], userId)
    else OtherUsersLines(carts[1..], userId)
  }

  /** What `Cart.query.filter_by(user_id=u, product_id=p).delete()` leaves. */
  function WithoutLine(carts: seq<Cart>, userId: int, productId: int): (r: seq<Cart>)
    ensures forall c :: c in r <==> c in carts && !IsLine(c, userId, productId)
  {
    if carts == [] then []
    else if !IsLine(carts[0], userId, productId) then [carts[0]] + WithoutLine(carts[1..], userId, productId)
    else WithoutLine(carts[1..], userId, productId)
  }

  /** What `Cart.query.filter(Cart.product_id.in_(ids)).delete()` leaves. */
  function WithoutProducts(carts: seq<Cart>, productIds: set<int>): (r: seq<Cart>)
    ensures forall c :: c in r <==> c in carts && c.productId !in productIds
  {
    if carts == [] then []
    else if carts[0].productId !in productIds then [carts[0]] + WithoutProducts(carts[1..], productIds)
    else WithoutProducts(carts[1..], productIds)
  }

  /** The cart page's `total_items`: the quantities of the user's lines summed over
      the inner join with Product, so a line whose product is gone is not counted. */
  function TotalItems(carts: seq<Cart>, products: seq<Product>, userId: int): (r: int)
    ensures (forall i :: 0 <= i < |carts| && carts[i].userId == userId ==>
               ProductIndex(products, carts[i].productId).Some?) ==>
            r == CartQuantity(UserLines(carts, userId))
    ensures (forall i :: 0 <= i < |carts| ==> carts[i].userId != userId) ==> r == 0
  {
    if carts == [] then 0
    else
      assert carts[0].userId == userId ==> UserLines(carts, userId)[1..] == UserLines(carts[1..], userId);
      (if carts[0].userId == userId && ProductIndex(products, carts[0].productId).Some?
       then carts[0].quantity else 0)
      + TotalItems(carts[1..], products, userId)
  }

  /** The inner join with Product: the lines whose product still exists, in order. */
  function Joined(carts: seq<Cart>, products: seq<Product>): (r: seq<Cart>)
    ensures forall c :: c in r <==> c in carts && ProductIndex(products, c.productId).Some?
  {
    if carts == [] then []
    else if ProductIndex(products, carts[0].productId).Some? then [carts[0]] + Joined(carts[1..], products)
    else Joined(carts[1..], products)
  }

  /** `total_items` sums the quantities of the user's lines that survive the join:
      a line whose product is gone is left out. */
  lemma {:induction false} TotalItemsIsJoinedSum(carts: seq<Cart>, products: seq<Product>, userId: int)
    ensures TotalItems(carts, products, userId) == CartQuantity(UserLines(Joined(carts, products), userId))
  {
    if carts != [] {
      TotalItemsIsJoinedSum(carts[1..], products, userId);
      var c, rest := carts[0], Joined(carts[1..], products);
      if ProductIndex(products, c.productId).Some? {
        var j := [c] + rest;
        assert j[0] == c && j[1..] == rest;
        if c.userId == userId {
          var u := [c] + UserLines(rest, userId);
          assert u[0] == c && u[1..] == UserLines(rest, userId);
        }
      }
    }
  }

  /** The sum of the quantities of some cart lines. */
  function CartQuantity(lines: seq<Cart>): int
  {
    if lines == [] then 0 else lines[0].quantity + CartQuantity(lines[1..])
  }

  lemma {:induction false} LineCountAppend(carts: seq<Cart>, c: Cart, u: int, p: int)
    ensures LineCount(carts + [c], u, p) == LineCount(carts, u, p) + (if IsLine(c, u, p) then 1 else 0)
  {
    if carts != [] {
      assert (carts + [c])[1..] == carts[1..] + [c];
      LineCountAppend(carts[1..], c, u, p);
    }
  }

  /** `add_to_cart` inserts only when (user, product) has no line, so the
      invariant survives the insert. */
  lemma AddLineKeepsOneLine(carts: seq<Cart>, c: Cart)
    requires AtMostOneLine(carts)
    requires LineCount(carts, c.userId, c.productId) == 0
    ensures AtMostOneLine(carts + [c])
    ensures LineCount(carts + [c], c.userId, c.productId) == 1
  {
    forall u, p ensures LineCount(carts + [c], u, p) <= 1 {
      LineCountAppend(carts, c, u, p);
    }
    LineCountAppend(carts, c, c.userId, c.productId);
  }

  /** Setting a line's quantity does not change which (user, product) it belongs to. */
  lemma {:induction false} SetQuantityKeepsCounts(carts: seq<Cart>, k: nat, q: int, u: int, p: int)
    requires k < |carts|
    ensures LineCount(carts[k := carts[k].(quantity := q)], u, p) == LineCount(carts, u, p)
  {
    var carts' := carts[k := carts[k].(quantity := q)];
    if k > 0 {
      assert carts'[1..] == carts[1..][k - 1 := carts[k].(quantity := q)];
      SetQuantityKeepsCounts(carts[1..], k - 1, q, u, p);
    } else {
      assert carts'[1..] == carts[1..];
    }
  }

  lemma SetQuantityKeepsOneLine(carts: seq<Cart>, k: nat, q: int)
    requires k < |carts|
    requires AtMostOneLine(carts)
    ensures AtMostOneLine(carts[k := carts[k].(quantity := q)])
  {
    var carts' := carts[k := carts[k].(quantity := q)];
    forall u, p ensures LineCount(carts', u, p) <= 1 {
      SetQuantityKeepsCounts(carts, k, q, u, p);
    }
  }

  /** Removing a user's lines leaves that user with no line and every other
      (user, product) with as many lines as before. */
  lemma {:induction false} OtherUsersLinesCount(carts: seq<Cart>, userId: int, u: int, p: int)
    ensures LineCount(OtherUsersLines(carts, userId), u, p) == if u == userId then 0 else LineCount(carts, u, p)
  {
    if carts != [] {
      OtherUsersLinesCount(carts[1..], userId, u, p);
    }
  }

  /** Removing the lines of (user, product) leaves it with none and every other
      pair with as many lines as before. */
  lemma {:induction false} WithoutLineCount(carts: seq<Cart>, userId: int, productId: int, u: int, p: int)
    ensures LineCount(WithoutLine(carts, userId, productId), u, p) ==
            if u == userId && p == productId then 0 else LineCount(carts, u, p)
  {
    if carts != [] {
      WithoutLineCount(carts[1..], userId, productId, u, p);
    }
  }

  /** Removing the lines of some products leaves those products with no line and
      every other pair with as many lines as before. */
  lemma {:induction false} WithoutProductsCount(carts: seq<Cart>, productIds: set<int>, u: int, p: int)
    ensures LineCount(WithoutProducts(carts, productIds), u, p) ==
            if p in productIds then 0 else LineCount(carts, u, p)
  {
    if carts != [] {
      WithoutProductsCount(carts[1..], productIds, u, p);
    }
  }

  /** The three bulk deletes the handlers run keep at most one line per pair. */
  lemma DeletesKeepOneLine(carts: seq<Cart>, userId: int, productId: int, productIds: set<int>)
    requires AtMostOneLine(carts)
    ensures AtMostOneLine(OtherUsersLines(carts, userId))
    ensures AtMostOneLine(WithoutLine(carts, userId, productId))
    ensures AtMostOneLine(WithoutProducts(carts, productIds))
  {
    forall u, p
      ensures LineCount(OtherUsersLines(carts, userId), u, p) <= 1
      ensures LineCount(WithoutLine(carts, userId, productId), u, p) <= 1
      ensures LineCount(WithoutProducts(carts, productIds), u, p) <= 1
    {
      OtherUsersLinesCount(carts, userId, u, p);
      WithoutLineCount(carts, userId, productId, u, p);
      WithoutProductsCount(carts, productIds, u, p);
    }
  }

  /** Splitting a cart by user loses no line and duplicates none: the user's lines
      and everybody else's together are exactly the cart. */
  lemma {:induction false} SplitByUser(carts: seq<Cart>, userId: int)
    ensures multiset(UserLines(carts, userId)) + multiset(OtherUsersLines(carts, userId)) == multiset(carts)
    ensures |UserLines(carts, userId)| + |OtherUsersLines(carts, userId)| == |carts|
  {
    if carts != [] {
      SplitByUser(carts[1..], userId);
      assert carts == [carts[0]] + carts[1..];
    }
  }

  /** Removing a user's lines and then asking for that user's lines gives nothing. */
  lemma {:induction false} NoLinesLeft(carts: seq<Cart>, userId: int)
    ensures UserLines(OtherUsersLines(carts, userId), userId) == []
  {
    if carts != [] {
      NoLinesLeft(carts[1..], userId);
    }
  }

  /** Another user's lines are the same before and after a user's lines are removed. */
  lemma {:induction false} OtherUserUntouched(carts: seq<Cart>, userId: int, other: int)
    requires other != userId
    ensures UserLines(OtherUsersLines(carts, userId), other) == UserLines(carts, other)
  {
    if carts != [] {
      OtherUserUntouched(carts[1..], userId, other);
    }
  }

  /** After a user's lines are removed the cart page counts zero items for them. */
  lemma {:induction false} TotalItemsAfterClear(carts: seq<Cart>, products: seq<Product>, userId: int)
    ensures TotalItems(OtherUsersLines(carts, userId), products, userId) == 0
  {
    if carts != [] {
      TotalItemsAfterClear(carts[1..], products, userId);
    }
  }

  /** Adding a line of quantity 1 raises the user's item count by one exactly when
      its product exists (the cart page joins lines to products). */
  lemma {:induction false} TotalItemsAfterAdd(carts: seq<Cart>, products: seq<Product>, c: Cart)
    requires c.quantity == 1
    ensures TotalItems(carts + [c], products, c.userId) ==
      TotalItems(carts, products, c.userId) + (if ProductIndex(products, c.productId).Some? then 1 else 0)
  {
    if carts == [] {
      assert [c][1..] == [];
    } else {
      assert (carts + [c])[1..] == carts[1..] + [c];
      TotalItemsAfterAdd(carts[1..], products, c);
    }
  }
}

=== FILE: details.dfy ===
/** The `purchase_details` JSON view of one purchase event, and how it relates
    to the checkout that created the event. */
module Details {
  import opened Records
  import opened Carts
  import opened Orders
  import opened Reports

  /** One entry of the reply's `items`. */
  datatype Item = Item(productId: int, productName: string, quantity: int)

  /** The reply body: the event, its address fields (street to phone number),
      its date and one item per purchase line. */
  datatype EventDetails = EventDetails(
    eventId: int, userId: int, address: AddressText, phoneNumber: Option<string>,
    purchaseDate: int, items: seq<Item>)

  /** 200 with the details, 404 for an unknown event, 500 when the event's address
      or one of its lines' products no longer exists (the attribute access on the
      missing row raises). */
  datatype DetailsReply = Found(details: EventDetails) | NoSuchEvent | Crashed

  function DetailsStatus(r: DetailsReply): int {
    match r
    case Found(_) => 200
    case NoSuchEvent => 404
    case Crashed => 500
  }

  function Items(lines: seq<Purchase>, products: seq<Product>): (r: seq<Item>)
    ensures |r| == |lines|
    ensures forall j :: 0 <= j < |lines| ==>
              r[j].productId == lines[j].productId && r[j].quantity == lines[j].quantity
    ensures forall j :: 0 <= j < |lines| && ProductIndex(products, lines[j].productId).Some? ==>
              r[j].productName == products[ProductIndex(products, lines[j].productId).value].name
  {
    var r := seq(|lines|, j requires 0 <= j < |lines| =>
      Item(lines[j].productId, ProductName(products, lines[j].productId), lines[j].quantity));
    r
  }

  /** `purchase_details(purchase_event_id)`. Nothing here consults the session:
      any caller may read any event. */
  function PurchaseDetails(db: Db, eventId: int): (r: DetailsReply)
    ensures r.NoSuchEvent? <==> forall i :: 0 <= i < |db.events| ==> db.events[i].id != eventId
    ensures r.Found? <==>
      (&& EventIndex(db.events, eventId).Some?
       && AddressIndex(db.addresses, db.events[EventIndex(db.events, eventId).value].addressId).Some?
       && AllProducts(PurchasesOf(db.purchases, eventId), db.products))
    ensures r.Found? ==>
      var e := db.events[EventIndex(db.events, eventId).value];
      && r.details.eventId == eventId && r.details.userId == e.userId && r.details.purchaseDate == e.purchaseDate
      && |r.details.items| == |PurchasesOf(db.purchases, eventId)|
    ensures r.Found? ==>
      var e := db.events[EventIndex(db.events, eventId).value];
      var a := db.addresses[AddressIndex(db.addresses, e.addressId).value];
      && r.details.address == AddressTextOf(a) && r.details.phoneNumber == a.phoneNumber
      && r.details.items == Items(PurchasesOf(db.purchases, eventId), db.products)
  {
    match EventIndex(db.events, eventId)
    case None => NoSuchEvent
    case Some(i) =>
      var e := db.events[i];
      match AddressIndex(db.addresses, e.addressId)
      case None => Crashed
      case Some(a) =>
        var lines := PurchasesOf(db.purchases, e.id);
        if !AllProducts(lines, db.products) then Crashed
        else
          Found(EventDetails(e.id, e.userId, AddressTextOf(db.addresses[a]), db.addresses[a].phoneNumber,
                             e.purchaseDate, Items(lines, db.products)))
  }

  /** Likewise `purchase_details` of any event with a purchase line fails once
      the product table is empty. */
  lemma NoProductsNoDetails(db: Db, eventId: int)
    requires db.products == []
    requires PurchasesOf(db.purchases, eventId) != []
    ensures PurchaseDetails(db, eventId) != NoSuchEvent ==> PurchaseDetails(db, eventId) == Crashed
  {
    assert ProductIndex(db.products, PurchasesOf(db.purchases, eventId)[0].productId).None?;
  }

  /** Every purchase line points at an existing event: no handler removes events
      without removing every purchase line. */
  predicate PurchasesHaveEvents(events: seq<PurchaseEvent>, purchases: seq<Purchase>) {
    forall i :: 0 <= i < |purchases| ==> EventIndex(events, purchases[i].purchaseEventId).Some?
  }

  lemma {:induction false} PurchasesOfAppend(ps: seq<Purchase>, qs: seq<Purchase>, eventId: int)
    ensures PurchasesOf(ps + qs, eventId) == PurchasesOf(ps, eventId) + PurchasesOf(qs, eventId)
  {
    if ps == [] {
      assert ps + qs == qs;
    } else {
      assert (ps + qs)[0] == ps[0];
      assert (ps + qs)[1..] == ps[1..] + qs;
      PurchasesOfAppend(ps[1..], qs, eventId);
    }
  }

  lemma {:induction false} PurchasesOfNone(ps: seq<Purchase>, eventId: int)
    requires forall i :: 0 <= i < |ps| ==> ps[i].purchaseEventId != eventId
    ensures PurchasesOf(ps, eventId) == []
  {
    if ps != [] {
      PurchasesOfNone(ps[1..], eventId);
    }
  }

  lemma {:induction false} PurchasesOfAll(ps: seq<Purchase>, eventId: int)
    requires forall i :: 0 <= i < |ps| ==> ps[i].purchaseEventId == eventId
    ensures PurchasesOf(ps, eventId) == ps
  {
    if ps != [] {
      PurchasesOfAll(ps[1..], eventId);
      assert ps == [ps[0]] + ps[1..];
    }
  }

  /** A checkout keeps every purchase line pointing at an existing event. */
  lemma CheckoutKeepsEvents(db: Db, userId: int, addressId: int, now: int)
    requires PurchasesHaveEvents(db.events, db.purchases)
    ensures var db' := Checkout(db, userId, addressId, now);
      PurchasesHaveEvents(db'.events, db'.purchases)
  {
    var db' := Checkout(db, userId, addressId, now);
    var n := |db.purchases|;
    forall i | 0 <= i < |db'.purchases|
      ensures EventIndex(db'.events, db'.purchases[i].purchaseEventId).Some?
    {
      var id := db'.purchases[i].purchaseEventId;
      if i < n {
        assert db'.purchases[i] == db.purchases[i];
        var k := EventIndex(db.events, id).value;
        assert db'.events[k] == db.events[k];
      } else {
        assert db'.events[|db.events|].id == id;
      }
    }
  }

  /** Right after a checkout the new event's lines, as `purchase_details` lists
      them, are the user's former cart lines: same products, same quantities,
      same order, and nothing else (no older line can point at the new id). */
  lemma CheckoutThenDetails(db: Db, userId: int, addressId: int, now: int)
    requires PurchasesHaveEvents(db.events, db.purchases)
    ensures var db' := Checkout(db, userId, addressId, now);
      var e := db'.events[|db.events|];
      var lines := UserLines(db.carts, userId);
      var bought := PurchasesOf(db'.purchases, e.id);
      && |bought| == |lines|
      && forall j :: 0 <= j < |lines| ==>
           bought[j].productId == lines[j].productId && bought[j].quantity == lines[j].quantity
  {
    var db' := Checkout(db, userId, addressId, now);
    var e := db'.events[|db.events|];
    var n := |db.purchases|;
    forall i | 0 <= i < n
      ensures db.purchases[i].purchaseEventId != e.id
    {
      var k := EventIndex(db.events, db.purchases[i].purchaseEventId).value;
      assert db.events[k].id != e.id;
    }
    PurchasesOfNone(db.purchases, e.id);
    assert db'.purchases == db.purchases + db'.purchases[n..];
    PurchasesOfAppend(db.purchases, db'.purchases[n..], e.id);
    PurchasesOfAll(db'.purchases[n..], e.id);
  }
}

=== FILE: orders.dfy ===
/** The checkout transaction of `confirm_purchase`, as the change it makes to the
    tables when it commits. */
module Orders {
  import opened Records
  import opened Carts

  /** The JSON reply: 200 with the new event id, 401 with no session, 500 on a
      failed (rolled back) transaction. */
  datatype Response = Created(eventId: int) | Unauthorized | Failed

  function StatusCode(r: Response): int {
    match r
    case Created(_) => 200
    case Unauthorized => 401
    case Failed => 500
  }

  /** The Purchase rows added for a user's cart lines: one per line, with the line's
      product and quantity, under `eventId`, with consecutive ids from `firstId`. */
  function CopiedLines(lines: seq<Cart>, eventId: int, firstId: int): seq<Purchase>
  {
    seq(|lines|, i requires 0 <= i < |lines| =>
      Purchase(firstId + i, eventId, lines[i].productId, lines[i].quantity))
  }

  /** Each cart line becomes one purchase line under the event, with the cart
      line's product and quantity; the new ids increase, so no two coincide. */
  lemma CopiedLinesFields(lines: seq<Cart>, eventId: int, firstId: int)
    ensures var r := CopiedLines(lines, eventId, firstId);
      && |r| == |lines|
      && (forall i :: 0 <= i < |lines| ==>
            r[i].purchaseEventId == eventId && r[i].productId == lines[i].productId && r[i].quantity == lines[i].quantity)
      && (forall i, j :: 0 <= i < j < |lines| ==> firstId <= r[i].id < r[j].id)
  {
  }

  /** The handler's loop: one staged Purchase per cart line, in cart order. */
  method StageLines(lines: seq<Cart>, eventId: int, firstId: int) returns (staged: seq<Purchase>)
    ensures staged == CopiedLines(lines, eventId, firstId)
  {
    staged := [];
    var i := 0;
    while i < |lines|
      invariant 0 <= i <= |lines|
      invariant staged == CopiedLines(lines[..i], eventId, firstId)
    {
      staged := staged + [Purchase(firstId + i, eventId, lines[i].productId, lines[i].quantity)];
      i := i + 1;
    }
    assert lines[..i] == lines;
  }

  function PurchaseQuantity(ps: seq<Purchase>): int
  {
    if ps == [] then 0 else ps[0].quantity + PurchaseQuantity(ps[1..])
  }

  /** The tables after a committed checkout by `userId` against `addressId` at
      time `now`: one new event, the user's cart lines copied under it, the
      user's cart emptied. */
  function Checkout(db: Db, userId: int, addressId: int, now: int): (db': Db)
    ensures db'.users == db.users && db'.addresses == db.addresses
    ensures db'.products == db.products && db'.reports == db.reports
    ensures |db'.events| == |db.events| + 1 && db'.events[..|db.events|] == db.events
    ensures var e := db'.events[|db.events|];
      && e.userId == userId && e.addressId == addressId && e.purchaseDate == now
      && forall i :: 0 <= i < |db.events| ==> db.events[i].id != e.id
    ensures var lines := UserLines(db.carts, userId);
      && |db'.purchases| == |db.purchases| + |lines|
      && db'.purchases[..|db.purchases|] == db.purchases
      && forall i :: 0 <= i < |lines| ==>
           var p := db'.purchases[|db.purchases| + i];
           p.purchaseEventId == db'.events[|db.events|].id
           && p.productId == lines[i].productId && p.quantity == lines[i].quantity
    ensures forall c :: c in db'.carts <==> c in db.carts && c.userId != userId
  {
    var eventId := NextId(EventIds(db.events));
    assert forall i :: 0 <= i < |db.events| ==> EventIds(db.events)[i] == db.events[i].id;
    db.(events := db.events + [PurchaseEvent(eventId, userId, addressId, now)],
        purchases := db.purchases + CopiedLines(UserLines(db.carts, userId), eventId, NextId(PurchaseIds(db.purchases))),
        carts := OtherUsersLines(db.carts, userId))
  }

  lemma {:induction false} CopiedQuantity(lines: seq<Cart>, eventId: int, firstId: int)
    ensures PurchaseQuantity(CopiedLines(lines, eventId, firstId)) == CartQuantity(lines)
  {
    if lines != [] {
      assert CopiedLines(lines, eventId, firstId)[1..] == CopiedLines(lines[1..], eventId, firstId + 1);
      CopiedQuantity(lines[1..], eventId, firstId + 1);
    }
  }

  /** The cart is moved, not copied: every cart line either stays (another user's)
      or becomes exactly one purchase line, the quantities bought are the
      quantities that were in the cart, and the user's cart is empty afterwards,
      so a second checkout right after copies nothing. */
  lemma CheckoutMovesCart(db: Db, userId: int, addressId: int, now: int, addressId2: int, now2: int)
    ensures var db' := Checkout(db, userId, addressId, now);
      && |db'.carts| + (|db'.purchases| - |db.purchases|) == |db.carts|
      && PurchaseQuantity(db'.purchases[|db.purchases|..]) == CartQuantity(UserLines(db.carts, userId))
      && UserLines(db'.carts, userId) == []
      && Checkout(db', userId, addressId2, now2).purchases == db'.purchases
  {
    var db' := Checkout(db, userId, addressId, now);
    SplitByUser(db.carts, userId);
    var eventId := NextId(EventIds(db.events));
    assert db'.purchases[|db.purchases|..] ==
      CopiedLines(UserLines(db.carts, userId), eventId, NextId(PurchaseIds(db.purchases)));
    CopiedQuantity(UserLines(db.carts, userId), eventId, NextId(PurchaseIds(db.purchases)));
    NoLinesLeft(db.carts, userId);
    assert db'.purchases + [] == db'.purchases;
  }

  /** Checking out touches nobody else's cart, and leaves the checking-out user's
      cart page with zero items. */
  lemma CheckoutLeavesOthers(db: Db, userId: int, addressId: int, now: int, other: int)
    ensures other != userId ==>
      UserLines(Checkout(db, userId, addressId, now).carts, other) == UserLines(db.carts, other)
    ensures TotalItems(Checkout(db, userId, addressId, now).carts, db.products, userId) == 0
  {
    if other != userId {
      OtherUserUntouched(db.carts, userId, other);
    }
    TotalItemsAfterClear(db.carts, db.products, userId);
  }

  /** An empty cart still yields an event, with no purchase lines under it. */
  lemma EmptyCartCheckout(db: Db, userId: int, addressId: int, now: int)
    requires forall c :: c in db.carts ==> c.userId != userId
    ensures var db' := Checkout(db, userId, addressId, now);
      |db'.events| == |db.events| + 1 && db'.purchases == db.purchases && db'.carts == db.carts
  {
    NoUserLines(db.carts, userId);
  }

  lemma {:induction false} NoUserLines(carts: seq<Cart>, userId: int)
    requires forall c :: c in carts ==> c.userId != userId
    ensures UserLines(carts, userId) == [] && OtherUsersLines(carts, userId) == carts
  {
    if carts != [] {
      assert carts[0] in carts;
      assert forall c :: c in carts[1..] ==> c in carts;
      NoUserLines(carts[1..], userId);
      assert carts == [carts[0]] + carts[1..];
    }
  }
}

=== FILE: records.dfy ===
/** The storefront's tables (one datatype per row kind), and the queries every
    handler shares: "first row that matches" and the id SQLite hands out. */
module Records {

  datatype Option<T> = None | Some(value: T)

  /** A registered account. `password` holds the bcrypt hash, never the plaintext. */
  datatype User = User(id: int, email: string, password: string, isAdmin: bool)

  datatype Address = Address(
    id: int, userId: int,
    street: string, city: string, state: string, zipCode: string, country: string,
    phoneNumber: Option<string>, addressLabel: Option<string>)

  /** A listed item. The floating-point price and rating are not part of this model. */
  datatype Product = Product(
    id: int, name: string, description: string, condition: string,
    imageFilename: string, userId: int)

  /** One cart line: a user's pending intent to buy `quantity` of a product. */
  datatype Cart = Cart(id: int, userId: int, productId: int, quantity: int)

  /** One checkout; `purchaseDate` is a timestamp in microsecond ticks. */
  datatype PurchaseEvent = PurchaseEvent(id: int, userId: int, addressId: int, purchaseDate: int)

  /** A frozen copy of a cart line under a purchase event. */
  datatype Purchase = Purchase(id: int, purchaseEventId: int, productId: int, quantity: int)

  /** Metadata of a generated CSV report. */
  datatype Report = Report(id: int, filePath: string, createdAt: int)

  /** The whole database at one instant. */
  datatype Db = Db(
    users: seq<User>, addresses: seq<Address>, products: seq<Product>,
    carts: seq<Cart>, events: seq<PurchaseEvent>, purchases: seq<Purchase>,
    reports: seq<Report>)

  /** The position of the first row satisfying `p`, as `query.filter(...).first()`
      returns it (rows come back in table order). */
  function First<T>(s: seq<T>, p: T -> bool): (r: Option<nat>)
    ensures r.Some? ==> r.value < |s| && p(s[r.value])
    ensures r.Some? ==> forall j :: 0 <= j < r.value ==> !p(s[j])
    ensures r.None? <==> forall j :: 0 <= j < |s| ==> !p(s[j])
  {
    if s == [] then None
    else if p(s[0]) then Some(0)
    else match First(s[1..], p)
      case None => None
      case Some(k) => Some(k + 1)
  }

  /** `User.query.get(id)`. */
  function UserIndex(users: seq<User>, id: int): (r: Option<nat>)
    ensures r.Some? ==> r.value < |users| && users[r.value].id == id
    ensures r.None? <==> forall i :: 0 <= i < |users| ==> users[i].id != id
  {
    First(users, (u: User) => u.id == id)
  }

  /** `User.query.filter_by(email=email).first()`. */
  function UserIndexByEmail(users: seq<User>, email: string): (r: Option<nat>)
    ensures r.Some? ==> r.value < |users| && users[r.value].email == email
    ensures r.None? <==> forall i :: 0 <= i < |users| ==> users[i].email != email
  {
    First(users, (u: User) => u.email == email)
  }

  /** `Address.query.get(id)`. */
  function AddressIndex(addresses: seq<Address>, id: int): (r: Option<nat>)
    ensures r.Some? ==> r.value < |addresses| && addresses[r.value].id == id
    ensures r.None? <==> forall i :: 0 <= i < |addresses| ==> addresses[i].id != id
  {
    First(addresses, (a: Address) => a.id == id)
  }

  /** The product a purchase or cart line points at, if it still exists. */
  function ProductIndex(products: seq<Product>, id: int): (r: Option<nat>)
    ensures r.Some? ==> r.value < |products| && products[r.value].id == id
    ensures r.None? <==> forall i :: 0 <= i < |products| ==> products[i].id != id
  {
    First(products, (p: Product) => p.id == id)
  }

  /** `PurchaseEvent.query.get(id)`. */
  function EventIndex(events: seq<PurchaseEvent>, id: int): (r: Option<nat>)
    ensures r.Some? ==> r.value < |events| && events[r.value].id == id
    ensures r.None? <==> forall i :: 0 <= i < |events| ==> events[i].id != id
  {
    First(events, (e: PurchaseEvent) => e.id == id)
  }

  /** `Report.query.get(id)`. */
  function ReportIndex(reports: seq<Report>, id: int): (r: Option<nat>)
    ensures r.Some? ==> r.value < |reports| && reports[r.value].id == id
    ensures r.None? <==> forall i :: 0 <= i < |reports| ==> reports[i].id != id
  {
    First(reports, (rp: Report) => rp.id == id)
  }

  /** The id SQLite gives a new row of an INTEGER PRIMARY KEY table: one more than
      the largest id in use, or 1 for an empty table. The rule is stated for the
      positive ids the application's tables hold (it never writes an id itself):
      the least id that is at least 1 and above every id in use. */
  function NextId(ids: seq<int>): (r: int)
    ensures r >= 1
    ensures forall i :: 0 <= i < |ids| ==> ids[i] < r
    ensures r == 1 || exists i :: 0 <= i < |ids| && r == ids[i] + 1
  {
    if ids == [] then 1
    else
      var rest := NextId(ids[..|ids| - 1]);
      var last := ids[|ids| - 1];
      if last + 1 > rest then last + 1 else rest
  }

  function UserIds(users: seq<User>): seq<int> {
    seq(|users|, i requires 0 <= i < |users| => users[i].id)
  }

  function AddressIds(addresses: seq<Address>): seq<int> {
    seq(|addresses|, i requires 0 <= i < |addresses| => addresses[i].id)
  }

  function ProductIds(products: seq<Product>): seq<int> {
    seq(|products|, i requires 0 <= i < |products| => products[i].id)
  }

  function CartIds(carts: seq<Cart>): seq<int> {
    seq(|carts|, i requires 0 <= i < |carts| => carts[i].id)
  }

  function EventIds(events: seq<PurchaseEvent>): seq<int> {
    seq(|events|, i requires 0 <= i < |events| => events[i].id)
  }

  function PurchaseIds(purchases: seq<Purchase>): seq<int> {
    seq(|purchases|, i requires 0 <= i < |purchases| => purchases[i].id)
  }

  function ReportIds(reports: seq<Report>): seq<int> {
    seq(|reports|, i requires 0 <= i < |reports| => reports[i].id)
  }

  /** The primary key of the user table. */
  predicate UniqueUserIds(users: seq<User>) {
    forall i, j :: 0 <= i < j < |users| ==> users[i].id != users[j].id
  }

  /** The `unique=True` constraint on `User.email`. */
  predicate UniqueEmails(users: seq<User>) {
    forall i, j :: 0 <= i < j < |users| ==> users[i].email != users[j].email
  }
}

=== FILE: reports.dfy ===
/** The admin sales report of `generate_report`: which purchase events a date range
    selects, and the CSV rows written for them. */
module Reports {
  import opened Records

  /** Timestamps are microsecond ticks; day number d starts at d * TicksPerDay. */
  const TicksPerDay: int := 86_400_000_000

  /** Days are numbered as proleptic Gregorian ordinals (0001-01-01 is day 1);
      9999-12-31, the last day a `datetime` can hold, is day MaxDay. */
  const MaxDay: int := 3_652_059

  /** A `from_date`/`to_date` query argument: missing or empty, not a YYYY-MM-DD
      date, or the day it names (at most MaxDay, the largest a four-digit year
      can name). */
  datatype DateArg = Absent | Unparsable | Day(ordinal: int)

  /** What the handler makes of the two arguments: no range (the selection is
      empty), a half-open tick range, a parse failure, or a `to_date` whose next
      day is past the last day a `datetime` can hold. */
  datatype Window = NoWindow | Between(from: int, until: int) | BadDate | Overflow

  /** The midnight that starts day d. */
  function StartOfDay(d: int): int {
    d * TicksPerDay
  }

  /** Both dates must be given, or nothing is selected. `strptime` raises
      `ValueError` on either (caught: an invalid-date message), and adding one day
      to 9999-12-31 raises `OverflowError`, which the handler does not catch. */
  function ParseWindow(fromDate: DateArg, toDate: DateArg): (r: Window)
    ensures r.NoWindow? <==> fromDate.Absent? || toDate.Absent?
    ensures r.BadDate? <==> !fromDate.Absent? && !toDate.Absent? && (fromDate.Unparsable? || toDate.Unparsable?)
    ensures r.Overflow? <==> fromDate.Day? && toDate.Day? && toDate.ordinal >= MaxDay
    ensures r.Between? ==>
      && fromDate.Day? && toDate.Day? && toDate.ordinal < MaxDay
      && r.from == StartOfDay(fromDate.ordinal) && r.until == StartOfDay(toDate.ordinal + 1)
      && r.until - r.from == (toDate.ordinal - fromDate.ordinal + 1) * TicksPerDay
  {
    if fromDate.Absent? || toDate.Absent? then NoWindow
    else if fromDate.Unparsable? || toDate.Unparsable? then BadDate
    else if toDate.ordinal >= MaxDay then Overflow
    else Between(StartOfDay(fromDate.ordinal), StartOfDay(toDate.ordinal + 1))
  }

  /** `PurchaseEvent.query.filter(purchase_date >= from, purchase_date < until).all()`. */
  function EventsBetween(events: seq<PurchaseEvent>, from: int, until: int): (r: seq<PurchaseEvent>)
    ensures forall e :: e in r <==> e in events && from <= e.purchaseDate < until
  {
    if events == [] then []
    else if from <= events[0].purchaseDate < until then [events[0]] + EventsBetween(events[1..], from, until)
    else EventsBetween(events[1..], from, until)
  }

  /** The events the report covers: those in the window, none without one. */
  function Selected(events: seq<PurchaseEvent>, w: Window): (r: seq<PurchaseEvent>)
    ensures !w.Between? ==> r == []
    ensures w.Between? ==> forall e :: e in r <==> e in events && w.from <= e.purchaseDate < w.until
  {
    match w
    case Between(from, until) => EventsBetween(events, from, until)
    case _ => []
  }

  /** The selection rule: events are selected only when both dates are given and
      `to_date` is before 9999-12-31, and then exactly those from the start of
      `from_date` up to, not including, the start of the day after `to_date`; a
      missing date selects nothing. */
  lemma SelectionRule(events: seq<PurchaseEvent>, fromDate: DateArg, toDate: DateArg)
    ensures fromDate.Absent? || toDate.Absent? ==> Selected(events, ParseWindow(fromDate, toDate)) == []
    ensures !fromDate.Absent? && !toDate.Absent? && (fromDate.Unparsable? || toDate.Unparsable?) ==>
      ParseWindow(fromDate, toDate) == BadDate
    ensures fromDate.Day? && toDate.Day? && toDate.ordinal == MaxDay ==>
      ParseWindow(fromDate, toDate) == Overflow
    ensures fromDate.Day? && toDate.Day? && toDate.ordinal < MaxDay ==>
      forall e :: e in Selected(events, ParseWindow(fromDate, toDate)) <==>
        e in events && fromDate.ordinal * TicksPerDay <= e.purchaseDate < (toDate.ordinal + 1) * TicksPerDay
  {
  }

  /** Adding a day to `to_date` makes the whole of that calendar day count: every
      event on any day from `from_date` to `to_date` inclusive is selected. */
  lemma ToDateInclusive(events: seq<PurchaseEvent>, fromDay: int, toDay: int, e: PurchaseEvent, d: int)
    requires e in events && fromDay <= d <= toDay < MaxDay
    requires d * TicksPerDay <= e.purchaseDate < (d + 1) * TicksPerDay
    ensures e in Selected(events, ParseWindow(Day(fromDay), Day(toDay)))
  {
    assert fromDay * TicksPerDay <= d * TicksPerDay;
    assert (d + 1) * TicksPerDay <= (toDay + 1) * TicksPerDay;
  }

  /** `event.purchases`: the purchase lines under an event, in table order. */
  function PurchasesOf(purchases: seq<Purchase>, eventId: int): seq<Purchase>
  {
    if purchases == [] then []
    else if purchases[0].purchaseEventId == eventId then [purchases[0]] + PurchasesOf(purchases[1..], eventId)
    else PurchasesOf(purchases[1..], eventId)
  }

  /** An event's lines are exactly the purchase rows that point at it. */
  lemma {:induction false} PurchasesOfMembers(purchases: seq<Purchase>, eventId: int)
    ensures forall p :: p in PurchasesOf(purchases, eventId) <==> p in purchases && p.purchaseEventId == eventId
  {
    if purchases != [] {
      PurchasesOfMembers(purchases[1..], eventId);
      assert purchases == [purchases[0]] + purchases[1..];
    }
  }

  /** The five address fields the report's Address column is made of; the exact
      string layout is not modelled. */
  datatype AddressText = AddressText(street: string, city: string, state: string, zipCode: string, country: string)

  function AddressTextOf(a: Address): AddressText {
    AddressText(a.street, a.city, a.state, a.zipCode, a.country)
  }

  /** A CSV row: the header, or one purchase line. The purchase date is the
      event's timestamp; its `%Y-%m-%d %H:%M:%S` rendering is not modelled. */
  datatype ReportRow =
    | Header(columns: seq<string>)
    | Line(userEmail: string, userId: int, eventId: int, address: AddressText,
           productName: string, quantity: int, purchaseDate: int)

  const Columns: seq<string> :=
    ["User Email", "User ID", "Purchase Event ID", "Address", "Product Name", "Quantity", "Purchase Date"]

  /** Everything writing an event's rows looks up exists: its buyer, its address
      and the product of each of its lines. A missing one raises in the handler. */
  predicate Resolves(e: PurchaseEvent, db: Db) {
    && UserIndex(db.users, e.userId).Some?
    && AddressIndex(db.addresses, e.addressId).Some?
    && AllProducts(PurchasesOf(db.purchases, e.id), db.products)
  }

  /** Every line's product still exists. */
  predicate AllProducts(lines: seq<Purchase>, products: seq<Product>) {
    forall k :: 0 <= k < |lines| ==> ProductIndex(products, lines[k].productId).Some?
  }

  predicate AllResolve(sel: seq<PurchaseEvent>, db: Db) {
    forall k :: 0 <= k < |sel| ==> Resolves(sel[k], db)
  }

  /** `event.user.email`, `event.address` and `purchase.product.name`; the empty
      value stands for a lookup that would raise, and never reaches a report
      (see `CsvRows`). */
  function EmailOf(users: seq<User>, id: int): string {
    match UserIndex(users, id)
    case Some(k) => users[k].email
    case None => ""
  }

  function AddressTextFor(addresses: seq<Address>, id: int): AddressText {
    match AddressIndex(addresses, id)
    case Some(k) => AddressTextOf(addresses[k])
    case None => AddressText("", "", "", "", "")
  }

  function ProductName(products: seq<Product>, id: int): (r: string)
    ensures ProductIndex(products, id).Some? ==>
              products[ProductIndex(products, id).value].id == id && r == products[ProductIndex(products, id).value].name
  {
    match ProductIndex(products, id)
    case Some(k) => products[k].name
    case None => ""
  }

  /** The row of purchase line `p` of event `e`. */
  function LineRow(p: Purchase, email: string, e: PurchaseEvent, addr: AddressText, products: seq<Product>): ReportRow {
    Line(email, e.userId, e.id, addr, ProductName(products, p.productId), p.quantity, e.purchaseDate)
  }

  /** The rows for some purchase lines of event `e`: one per line, in order. */
  function LineRows(lines: seq<Purchase>, email: string, e: PurchaseEvent, addr: AddressText, products: seq<Product>)
    : (r: seq<ReportRow>)
    ensures |r| == |lines|
    ensures forall j :: 0 <= j < |lines| ==> r[j] == LineRow(lines[j], email, e, addr, products)
  {
    if lines == [] then []
    else LineRows(lines[..|lines| - 1], email, e, addr, products) + [LineRow(lines[|lines| - 1], email, e, addr, products)]
  }

  /** The rows of one event, carrying its buyer's email, its id and its address. */
  function EventRows(e: PurchaseEvent, db: Db): seq<ReportRow>
  {
    LineRows(PurchasesOf(db.purchases, e.id), EmailOf(db.users, e.userId), e,
             AddressTextFor(db.addresses, e.addressId), db.products)
  }

  /** The data rows of the selected events: event by event, line by line. */
  function ReportRows(sel: seq<PurchaseEvent>, db: Db): seq<ReportRow>
  {
    if sel == [] then []
    else ReportRows(sel[..|sel| - 1], db) + EventRows(sel[|sel| - 1], db)
  }

  /** The number of purchase lines under the selected events. */
  function LineTotal(sel: seq<PurchaseEvent>, purchases: seq<Purchase>): nat
  {
    if sel == [] then 0
    else LineTotal(sel[..|sel| - 1], purchases) + |PurchasesOf(purchases, sel[|sel| - 1].id)|
  }

  /** The whole CSV: the header and the data rows, or None when some reference
      is missing (the handler raises and no Report row is recorded). */
  function CsvRows(sel: seq<PurchaseEvent>, db: Db): (r: Option<seq<ReportRow>>)
    ensures r.Some? <==> AllResolve(sel, db)
    ensures r.Some? ==> |r.value| == 1 + LineTotal(sel, db.purchases) && r.value[0] == Header(Columns)
  {
    if AllResolve(sel, db) then
      RowCount(sel, db);
      Some([Header(Columns)] + ReportRows(sel, db))
    else None
  }

  /** Writing two selections one after the other writes the rows of their
      concatenation: the rows of each event do not depend on the others. */
  lemma {:induction false} ReportRowsAppend(a: seq<PurchaseEvent>, b: seq<PurchaseEvent>, db: Db)
    ensures ReportRows(a + b, db) == ReportRows(a, db) + ReportRows(b, db)
  {
    if b == [] {
      assert a + b == a;
    } else {
      var b', e := b[..|b| - 1], b[|b| - 1];
      assert (a + b)[..|a + b| - 1] == a + b';
      assert (a + b)[|a + b| - 1] == e;
      ReportRowsAppend(a, b', db);
      assert ReportRows(a + b, db) == ReportRows(a + b', db) + EventRows(e, db);
      assert ReportRows(b, db) == ReportRows(b', db) + EventRows(e, db);
    }
  }

  /** One data row per (selected event, purchase line) pair. */
  lemma {:induction false} RowCount(sel: seq<PurchaseEvent>, db: Db)
    ensures |ReportRows(sel, db)| == LineTotal(sel, db.purchases)
  {
    if sel != [] {
      RowCount(sel[..|sel| - 1], db);
    }
  }

  /** Rows come in event order, then line order: line j of the i-th selected event
      is the row right after the lines of the events before it. */
  lemma {:induction false} RowPosition(sel: seq<PurchaseEvent>, db: Db, i: nat, j: nat)
    requires i < |sel| && j < |PurchasesOf(db.purchases, sel[i].id)|
    ensures LineTotal(sel[..i], db.purchases) + j < |ReportRows(sel, db)|
    ensures ReportRows(sel, db)[LineTotal(sel[..i], db.purchases) + j] == EventRows(sel[i], db)[j]
  {
    var n := |sel|;
    var prefix := sel[..n - 1];
    var before := ReportRows(prefix, db);
    assert ReportRows(sel, db) == before + EventRows(sel[n - 1], db);
    RowCount(prefix, db);
    if i == n - 1 {
      assert sel[..i] == prefix;
    } else {
      assert prefix[..i] == sel[..i];
      assert prefix[i] == sel[i];
      RowPosition(prefix, db, i, j);
    }
  }

  /** Line j of the i-th selected event is written as the row of the event's
      buyer (email), id, date and address and the line's product and quantity. */
  lemma RowAt(sel: seq<PurchaseEvent>, db: Db, i: nat, j: nat)
    requires AllResolve(sel, db)
    requires i < |sel| && j < |PurchasesOf(db.purchases, sel[i].id)|
    ensures LineTotal(sel[..i], db.purchases) + j < |ReportRows(sel, db)|
    ensures var e := sel[i];
      var p := PurchasesOf(db.purchases, e.id)[j];
      var row := ReportRows(sel, db)[LineTotal(sel[..i], db.purchases) + j];
      && row.Line?
      && row.userId == e.userId && row.eventId == e.id && row.purchaseDate == e.purchaseDate
      && row.quantity == p.quantity && p.purchaseEventId == e.id
      && row.userEmail == db.users[UserIndex(db.users, e.userId).value].email
      && row.productName == db.products[ProductIndex(db.products, p.productId).value].name
      && row.address == AddressTextOf(db.addresses[AddressIndex(db.addresses, e.addressId).value])
  {
    RowPosition(sel, db, i, j);
    var e := sel[i];
    var lines := PurchasesOf(db.purchases, e.id);
    PurchasesOfMembers(db.purchases, e.id);
    assert lines[j] in lines;
    assert Resolves(e, db);
    var ku := UserIndex(db.users, e.userId).value;
    var kp := ProductIndex(db.products, lines[j].productId).value;
  }

  /** One more purchase line appends exactly its row. */
  lemma LineRowsStep(lines: seq<Purchase>, j: nat, email: string, e: PurchaseEvent, addr: AddressText,
                     products: seq<Product>)
    requires j < |lines|
    ensures LineRows(lines[..j + 1], email, e, addr, products) ==
            LineRows(lines[..j], email, e, addr, products) + [LineRow(lines[j], email, e, addr, products)]
  {
    assert lines[..j + 1][..j] == lines[..j];
  }

  lemma AllProductsStep(lines: seq<Purchase>, j: nat, products: seq<Product>)
    requires j < |lines|
    requires AllProducts(lines[..j], products) && ProductIndex(products, lines[j].productId).Some?
    ensures AllProducts(lines[..j + 1], products)
  {
    var longer := lines[..j + 1];
    forall k | 0 <= k < |longer|
      ensures ProductIndex(products, longer[k].productId).Some?
    {
      if k < j {
        assert longer[k] == lines[..j][k];
      }
    }
  }

  /** The handler's inner loop: one row per purchase line, looking up each
      line's product name; a missing product raises. */
  method WriteLineRows(lines: seq<Purchase>, email: string, e: PurchaseEvent, addr: AddressText, products: seq<Product>)
    returns (r: Option<seq<ReportRow>>)
    ensures r.Some? <==> AllProducts(lines, products)
    ensures r.Some? ==> r.value == LineRows(lines, email, e, addr, products)
  {
    var rows := [];
    var j := 0;
    while j < |lines|
      invariant 0 <= j <= |lines|
      invariant AllProducts(lines[..j], products)
      invariant rows == LineRows(lines[..j], email, e, addr, products)
    {
      var pi := ProductIndex(products, lines[j].productId);
      if pi.None? {
        assert !AllProducts(lines, products) by {
          assert ProductIndex(products, lines[j].productId).None?;
        }
        return None;
      }
      var row := Line(email, e.userId, e.id, addr, products[pi.value].name, lines[j].quantity, e.purchaseDate);
      assert row == LineRow(lines[j], email, e, addr, products);
      LineRowsStep(lines, j, email, e, addr, products);
      AllProductsStep(lines, j, products);
      rows := rows + [row];
      j := j + 1;
    }
    assert lines[..j] == lines;
    r := Some(rows);
  }

  /** The body of the handler's outer loop: look up the event's buyer and
      address, then write the rows of its purchase lines. */
  method WriteEventRows(e: PurchaseEvent, db: Db) returns (r: Option<seq<ReportRow>>)
    ensures r.Some? <==> Resolves(e, db)
    ensures r.Some? ==> r.value == EventRows(e, db)
  {
    var ui := UserIndex(db.users, e.userId);
    if ui.None? {
      return None;
    }
    var ai := AddressIndex(db.addresses, e.addressId);
    if ai.None? {
      return None;
    }
    r := WriteLineRows(PurchasesOf(db.purchases, e.id), db.users[ui.value].email, e,
                       AddressTextOf(db.addresses[ai.value]), db.products);
  }

  /** `delete_all_products` keeps the purchase lines, so afterwards a report
      selecting any event that has a purchase line raises and records nothing. */
  lemma NoProductsNoReport(sel: seq<PurchaseEvent>, db: Db, i: nat)
    requires db.products == []
    requires i < |sel| && PurchasesOf(db.purchases, sel[i].id) != []
    ensures CsvRows(sel, db) == None
  {
    assert ProductIndex(db.products, PurchasesOf(db.purchases, sel[i].id)[0].productId).None?;
    assert !Resolves(sel[i], db);
  }

  /** One more selected event: its rows are appended, and the selection so far
      still resolves when that event does. */
  lemma PrefixStep(sel: seq<PurchaseEvent>, i: nat, db: Db)
    requires i < |sel|
    ensures ReportRows(sel[..i + 1], db) == ReportRows(sel[..i], db) + EventRows(sel[i], db)
    ensures AllResolve(sel[..i], db) && Resolves(sel[i], db) ==> AllResolve(sel[..i + 1], db)
  {
    assert sel[..i + 1] == sel[..i] + [sel[i]];
    ReportRowsAppend(sel[..i], [sel[i]], db);
    assert [sel[i]][..0] == [];
  }

  /** The handler's outer loop: each selected event's rows, in selection order;
      the first event with a missing reference aborts the report. */
  method WriteDataRows(sel: seq<PurchaseEvent>, db: Db) returns (r: Option<seq<ReportRow>>)
    ensures r.Some? <==> AllResolve(sel, db)
    ensures r.Some? ==> r.value == ReportRows(sel, db)
  {
    var rows := [];
    var i := 0;
    while i < |sel|
      invariant 0 <= i <= |sel|
      invariant AllResolve(sel[..i], db)
      invariant rows == ReportRows(sel[..i], db)
    {
      var eventRows := WriteEventRows(sel[i], db);
      if eventRows.None? {
        return None;
      }
      PrefixStep(sel, i, db);
      rows := rows + eventRows.value;
      i := i + 1;
    }
    assert sel[..i] == sel;
    r := Some(rows);
  }

  /** The CSV the handler writes: the header row, then the data rows. */
  method WriteRows(sel: seq<PurchaseEvent>, db: Db) returns (r: Option<seq<ReportRow>>)
    ensures r == CsvRows(sel, db)
  {
    var data := WriteDataRows(sel, db);
    if data.None? {
      return None;
    }
    r := Some([Header(Columns)] + data.value);
  }
}

=== FILE: scenario.dfy ===
/** A walk through the storefront: Alice lists a jacket, Bob buys it, and the
    purchase details show exactly what Bob bought and where it goes. */
module Scenario {
  import opened Records
  import opened Carts
  import opened Orders
  import opened Reports
  import opened Details
  import opened Shop

  const Alice := User(1, "alice@example.com", "hash-a", false)
  const Bob := User(2, "bob@example.com", "hash-b", false)
  const Jacket := Product(1, "Red Jacket", "A red jacket", "Used", "jacket.jpg", 1)
  const BobsHome := Address(1, 2, "1 Elm St", "Springfield", "IL", "62701", "USA", None, Some("Home"))

  /** Alice registers and lists the jacket; Bob registers, puts it in his cart
      and adds an address. */
  method BobFillsCart() returns (store: Store)
    ensures fresh(store) && store.Valid() && store.session == Some(2)
    ensures store.State() == Db([Alice, Bob], [BobsHome], [Jacket], [Cart(1, 2, 1, 1)], [], [], [])
  {
    store := new Store();
    var status := store.Register("alice@example.com", "pw-a", "pw-a", "hash-a");
    assert UserIds([]) == [];
    assert store.users == [Alice];
    status := store.SellProduct("Red Jacket", "A red jacket", "Used", "jacket.jpg");
    assert ProductIds([]) == [];
    store.Logout();
    assert UserIndexByEmail(store.users, "bob@example.com").None? by {
      assert store.users[0].email != "bob@example.com";
    }
    status := store.Register("bob@example.com", "pw-b", "pw-b", "hash-b");
    assert UserIds([Alice]) == [1];
    status := store.AddToCart(1);
    assert CartIds([]) == [];
    status := store.AddAddress("1 Elm St", "Springfield", "IL", "62701", "USA", None, Some("Home"));
    assert store.users[1].id == 2;
    assert AddressIds([]) == [];
  }

  /** Bob checks out against his address (a 200 reply); the purchase details,
      also a 200, list the one jacket, quantity 1, going to that address. */
  method AliceSellsBobBuys(now: int) returns (checkoutCode: int, details: DetailsReply)
    ensures checkoutCode == 200 && DetailsStatus(details) == 200
    ensures details == Found(EventDetails(1, 2, AddressText("1 Elm St", "Springfield", "IL", "62701", "USA"),
                                          None, now, [Item(1, "Red Jacket", 1)]))
  {
    var store := BobFillsCart();
    ghost var before := store.State();
    var resp := store.ConfirmPurchase(Some(1), now, false);
    BobChecksOut(before, now);
    assert resp == Created(1);
    BobsDetails(store.State(), now);
    checkoutCode := StatusCode(resp);
    details := PurchaseDetails(store.State(), resp.eventId);
  }

  lemma BobChecksOut(db: Db, now: int)
    requires db.events == [] && db.purchases == [] && db.carts == [Cart(1, 2, 1, 1)]
    ensures var db' := Checkout(db, 2, 1, now);
      db'.events == [PurchaseEvent(1, 2, 1, now)] && db'.purchases == [Purchase(1, 1, 1, 1)] && db'.carts == []
  {
    assert EventIds([]) == [] && PurchaseIds([]) == [];
    assert UserLines([Cart(1, 2, 1, 1)], 2) == [Cart(1, 2, 1, 1)];
    assert CopiedLines([Cart(1, 2, 1, 1)], 1, 1) == [Purchase(1, 1, 1, 1)];
  }

  lemma BobsDetails(db: Db, now: int)
    requires db.events == [PurchaseEvent(1, 2, 1, now)] && db.purchases == [Purchase(1, 1, 1, 1)]
    requires db.addresses == [BobsHome] && db.products == [Jacket]
    ensures PurchaseDetails(db, 1) == Found(EventDetails(1, 2, AddressText("1 Elm St", "Springfield", "IL", "62701", "USA"),
                                                         None, now, [Item(1, "Red Jacket", 1)]))
  {
    assert PurchasesOf(db.purchases, 1) == [Purchase(1, 1, 1, 1)];
    assert ProductName(db.products, 1) == "Red Jacket";
    assert Items([Purchase(1, 1, 1, 1)], db.products) == [Item(1, "Red Jacket", 1)];
  }
}

=== FILE: shop.dfy ===
/** The storefront's database and session, and the request handlers that read
    and change them. Each handler is one method: its result is the outcome the
    handler reports (as a flash message, a redirect or a JSON status), and its
    postcondition says what the tables are afterwards. */
module Shop {
  import opened Records
  import opened Carts
  import opened Orders
  import opened Reports
  import opened Details
  import opened Access

  /** What a handler reports back. */
  datatype Status =
    | Done             // the handler's success message
    | LoginRequired    // no `user_id` in the session
    | PasswordMismatch
    | EmailTaken
    | BadCredentials
    | MissingFields    // a required address field is missing or empty
    | NoImage          // no image file was chosen
    | NotFound         // the row named in the URL does not exist (404 or flash)
    | Forbidden        // the address belongs to another user
    | AlreadyInCart
    | AdminRequired    // `admin_required` turned the request away
    | InvalidDate
    | ServerError      // an exception escaped the handler: 500, nothing committed
    | Ignored          // the handler redirected without doing or saying anything

  /** Where `generate_report` writes the CSV; `stamp` is the `%Y%m%d%H%M%S`
      rendering of the current time. */
  function ReportPath(stamp: string): (r: string)
    ensures |r| == |stamp| + 34
    ensures r[..30] == "reports/user_purchases_report_" && r[|r| - 4..] == ".csv"
    ensures r[30..|r| - 4] == stamp
  {
    "reports/user_purchases_report_" + stamp + ".csv"
  }

  class Store {
    var users: seq<User>
    var addresses: seq<Address>
    var products: seq<Product>
    var carts: seq<Cart>
    var events: seq<PurchaseEvent>
    var purchases: seq<Purchase>
    var reports: seq<Report>
    /** `session['user_id']`, if any. */
    var session: Option<int>

    function State(): Db
      reads this
    {
      Db(users, addresses, products, carts, events, purchases, reports)
    }

    /** What the schema and the handlers keep true: unique user ids and
        emails, at most one cart line per (user, product), and no purchase line
        without its event. */
    ghost predicate Valid()
      reads this
    {
      && UniqueUserIds(users) && UniqueEmails(users)
      && AtMostOneLine(carts)
      && PurchasesHaveEvents(events, purchases)
    }

    /** `db.create_all()` on a fresh database, nobody logged in. */
    constructor ()
      ensures Valid()
      ensures State() == Db([], [], [], [], [], [], []) && session == None
    {
      users, addresses, products, carts := [], [], [], [];
      events, purchases, reports := [], [], [];
      session := None;
    }

    /** `register`: `hashed` is the bcrypt hash of `password`. */
    method Register(email: string, password: string, confirm: string, hashed: string) returns (status: Status)
      requires Valid()
      modifies this
      ensures Valid()
      ensures status == PasswordMismatch <==> password != confirm
      ensures status == EmailTaken <==>
        password == confirm && exists i :: 0 <= i < |old(users)| && old(users)[i].email == email
      ensures status == PasswordMismatch || status == EmailTaken || status == Done
      ensures status != Done ==> State() == old(State()) && session == old(session)
      ensures status == Done ==>
        && State() == old(State()).(users := users)
        && |users| == |old(users)| + 1 && users[..|old(users)|] == old(users)
        && users[|old(users)|] == User(NextId(UserIds(old(users))), email, hashed, false)
        && session == Some(NextId(UserIds(old(users))))
    {
      if password != confirm {
        return PasswordMismatch;
      }
      if UserIndexByEmail(users, email).Some? {
        return EmailTaken;
      }
      var id := NextId(UserIds(users));
      assert forall i :: 0 <= i < |users| ==> UserIds(users)[i] == users[i].id;
      users := users + [User(id, email, hashed, false)];
      session := Some(id);
      status := Done;
    }

    /** `login`: `checkHash(hash, password)` is bcrypt's check. The tables never
        change; a failed login keeps whatever session there was. */
    method Login(email: string, password: string, checkHash: (string, string) -> bool) returns (status: Status)
      requires Valid()
      modifies this
      ensures Valid() && State() == old(State())
      ensures status == Done <==>
        exists i :: 0 <= i < |users| && users[i].email == email && checkHash(users[i].password, password)
      ensures status == Done ==>
        session.Some? && exists i :: 0 <= i < |users| && users[i].email == email && users[i].id == session.value
      ensures status != Done ==> status == BadCredentials && session == old(session)
    {
      var k := UserIndexByEmail(users, email);
      if k.Some? && checkHash(users[k.value].password, password) {
        session := Some(users[k.value].id);
        return Done;
      }
      status := BadCredentials;
    }

    method Logout()
      requires Valid()
      modifies this
      ensures Valid() && State() == old(State()) && session == None
    {
      session := None;
    }

    /** `add_address`: the five required fields must be non-empty (a missing
        form field counts as empty); the optional ones are stored as given. The
        session's user is dereferenced only once the fields are accepted. */
    method AddAddress(street: string, city: string, stateName: string, zipCode: string, country: string,
                      phoneNumber: Option<string>, addressLabel: Option<string>) returns (status: Status)
      requires Valid()
      modifies this
      ensures Valid() && session == old(session)
      ensures status == LoginRequired <==> session.None?
      ensures status == MissingFields <==>
        session.Some? && (street == "" || city == "" || stateName == "" || zipCode == "" || country == "")
      ensures status == ServerError <==>
        && session.Some? && street != "" && city != "" && stateName != "" && zipCode != "" && country != ""
        && forall i :: 0 <= i < |users| ==> users[i].id != session.value
      ensures status in {LoginRequired, MissingFields, ServerError, Done}
      ensures status != Done ==> State() == old(State())
      ensures status == Done ==>
        && State() == old(State()).(addresses := addresses)
        && |addresses| == |old(addresses)| + 1 && addresses[..|old(addresses)|] == old(addresses)
        && addresses[|old(addresses)|] ==
             Address(NextId(AddressIds(old(addresses))), session.value, street, city, stateName, zipCode, country,
                     phoneNumber, addressLabel)
    {
      if session.None? {
        return LoginRequired;
      }
      if street == "" || city == "" || stateName == "" || zipCode == "" || country == "" {
        return MissingFields;
      }
      if UserIndex(users, session.value).None? {
        return ServerError;
      }
      var id := NextId(AddressIds(addresses));
      addresses := addresses + [Address(id, session.value, street, city, stateName, zipCode, country,
                                        phoneNumber, addressLabel)];
      status := Done;
    }

    /** `delete_address`: only the owner may delete. Deleting an address a
        purchase event still points at makes the ORM null the event's
        `address_id`, which is NOT NULL, so the commit raises. */
    method DeleteAddress(addressId: int) returns (status: Status)
      requires Valid()
      modifies this
      ensures Valid() && session == old(session)
      ensures status == LoginRequired <==> session.None?
      ensures status == NotFound <==>
        session.Some? && forall i :: 0 <= i < |old(addresses)| ==> old(addresses)[i].id != addressId
      ensures status in {LoginRequired, NotFound, ServerError, Forbidden, Done}
      ensures status != Done ==> State() == old(State())
      ensures status == Forbidden <==>
        && session.Some? && AddressIndex(old(addresses), addressId).Some?
        && UserIndex(users, session.value).Some?
        && old(addresses)[AddressIndex(old(addresses), addressId).value].userId != session.value
      ensures status == Done <==>
        && session.Some? && AddressIndex(old(addresses), addressId).Some?
        && UserIndex(users, session.value).Some?
        && old(addresses)[AddressIndex(old(addresses), addressId).value].userId == session.value
        && (forall i :: 0 <= i < |events| ==> events[i].addressId != addressId)
      ensures status == Done ==>
        var k := AddressIndex(old(addresses), addressId).value;
        State() == old(State()).(addresses := old(addresses)[..k] + old(addresses)[k + 1..])
    {
      if session.None? {
        return LoginRequired;
      }
      var k := AddressIndex(addresses, addressId);
      if k.None? {
        return NotFound;
      }
      if UserIndex(users, session.value).None? {
        return ServerError;
      }
      if addresses[k.value].userId != session.value {
        return Forbidden;
      }
      if exists i :: 0 <= i < |events| && events[i].addressId == addressId {
        return ServerError;
      }
      addresses := addresses[..k.value] + addresses[k.value + 1..];
      status := Done;
    }

    /** `sell_product`: `image` is the uploaded file's name, empty when no file
        was chosen. The product is recorded under the session's user id, which
        is not looked up. */
    method SellProduct(name: string, description: string, condition: string, image: string) returns (status: Status)
      requires Valid()
      modifies this
      ensures Valid() && session == old(session)
      ensures status == LoginRequired <==> session.None?
      ensures status == NoImage <==> session.Some? && image == ""
      ensures status in {LoginRequired, NoImage, Done}
      ensures status != Done ==> State() == old(State())
      ensures status == Done ==>
        State() == old(State()).(products := old(products) +
          [Product(NextId(ProductIds(old(products))), name, description, condition, image, session.value)])
    {
      if session.None? {
        return LoginRequired;
      }
      if image == "" {
        return NoImage;
      }
      var id := NextId(ProductIds(products));
      products := products + [Product(id, name, description, condition, image, session.value)];
      status := Done;
    }

    /** `add_to_cart`: a new line of quantity 1, unless (user, product) has a line
        already. The product is not looked up. */
    method AddToCart(productId: int) returns (status: Status)
      requires Valid()
      modifies this
      ensures Valid() && session == old(session)
      ensures status == LoginRequired <==> session.None?
      ensures status == AlreadyInCart <==> session.Some? && LineCount(old(carts), session.value, productId) > 0
      ensures status in {LoginRequired, AlreadyInCart, Done}
      ensures status != Done ==> State() == old(State())
      ensures status == Done ==>
        && State() == old(State()).(carts := old(carts) + [Cart(NextId(CartIds(old(carts))), session.value, productId, 1)])
        && LineCount(carts, session.value, productId) == 1
    {
      if session.None? {
        return LoginRequired;
      }
      var uid := session.value;
      if LineIndex(carts, uid, productId).Some? {
        return AlreadyInCart;
      }
      var line := Cart(NextId(CartIds(carts)), uid, productId, 1);
      AddLineKeepsOneLine(carts, line);
      carts := carts + [line];
      status := Done;
    }

    /** `updateitem`: "remove" deletes the (user, product) lines; "update" sets
        the quantity of the first such line, if there is one; any other action
        does nothing. */
    method UpdateItem(productId: int, action: string, quantity: int) returns (status: Status)
      requires Valid()
      modifies this
      ensures Valid() && session == old(session)
      ensures status == LoginRequired <==> session.None?
      ensures session.None? ==> State() == old(State())
      ensures session.Some? && action == "remove" ==>
        status == Done && State() == old(State()).(carts := WithoutLine(old(carts), session.value, productId))
      ensures session.Some? && action == "update" ==>
        match LineIndex(old(carts), session.value, productId)
        case Some(k) =>
          status == Done && State() == old(State()).(carts := old(carts)[k := old(carts)[k].(quantity := quantity)])
        case None => status == Ignored && State() == old(State())
      ensures session.Some? && action != "remove" && action != "update" ==>
        status == Ignored && State() == old(State())
    {
      if session.None? {
        return LoginRequired;
      }
      var uid := session.value;
      if action == "remove" {
        DeletesKeepOneLine(carts, uid, productId, {});
        carts := WithoutLine(carts, uid, productId);
        return Done;
      } else if action == "update" {
        var k := LineIndex(carts, uid, productId);
        if k.Some? {
          SetQuantityKeepsOneLine(carts, k.value, quantity);
          carts := carts[k.value := carts[k.value].(quantity := quantity)];
          return Done;
        }
      }
      status := Ignored;
    }

    /** `confirm_purchase`: a new event, one purchase line per cart line of the
        user, the user's cart emptied, all in one transaction. The event's
        `address_id` is NOT NULL, so a request without one fails at the flush;
        `commitFails` stands for any other failure of the transaction. A failure
        rolls everything back. */
    method ConfirmPurchase(addressId: Option<int>, now: int, commitFails: bool) returns (resp: Response)
      requires Valid()
      modifies this
      ensures Valid() && session == old(session)
      ensures resp == Unauthorized <==> session.None?
      ensures resp == Failed <==> session.Some? && (addressId.None? || commitFails)
      ensures !resp.Created? ==> State() == old(State())
      ensures resp.Created? ==>
        && State() == Checkout(old(State()), session.value, addressId.value, now)
        && resp.eventId == events[|old(events)|].id
    {
      if session.None? {
        return Unauthorized;
      }
      if addressId.None? {
        return Failed;
      }
      var uid := session.value;
      var eventId := NextId(EventIds(events));
      var lines := UserLines(carts, uid);
      var firstId := NextId(PurchaseIds(purchases));
      var staged := StageLines(lines, eventId, firstId);
      if commitFails {
        return Failed;
      }
      DeletesKeepOneLine(carts, uid, 0, {});
      CheckoutKeepsEvents(State(), uid, addressId.value, now);
      events := events + [PurchaseEvent(eventId, uid, addressId.value, now)];
      purchases := purchases + staged;
      carts := OtherUsersLines(carts, uid);
      resp := Created(eventId);
    }

    /** `generate_report`: admin only. The rows written are `CsvRows` of the
        selected events; a dangling reference raises while writing, and then no
        Report row is recorded. */
    method GenerateReport(fromDate: DateArg, toDate: DateArg, stamp: string, now: int)
      returns (status: Status, csv: Option<seq<ReportRow>>)
      requires Valid()
      modifies this
      ensures Valid() && session == old(session)
      ensures status == AdminRequired <==> !IsAdmin(users, session)
      ensures status == InvalidDate <==> IsAdmin(users, session) && ParseWindow(fromDate, toDate).BadDate?
      ensures status in {AdminRequired, InvalidDate, ServerError, Done}
      ensures status != Done ==> State() == old(State()) && csv.None?
      ensures status == Done ==>
        && csv == CsvRows(Selected(events, ParseWindow(fromDate, toDate)), old(State()))
        && State() == old(State()).(reports := old(reports) +
             [Report(NextId(ReportIds(old(reports))), ReportPath(stamp), now)])
      ensures status == ServerError <==>
        && IsAdmin(users, session) && !ParseWindow(fromDate, toDate).BadDate?
        && (|| ParseWindow(fromDate, toDate).Overflow?
            || CsvRows(Selected(events, ParseWindow(fromDate, toDate)), old(State())).None?)
    {
      if !IsAdmin(users, session) {
        return AdminRequired, None;
      }
      var w := ParseWindow(fromDate, toDate);
      if w.BadDate? {
        return InvalidDate, None;
      }
      if w.Overflow? {
        return ServerError, None;
      }
      var rows := WriteRows(Selected(events, w), State());
      if rows.None? {
        return ServerError, None;
      }
      reports := reports + [Report(NextId(ReportIds(reports)), ReportPath(stamp), now)];
      status, csv := Done, rows;
    }

    /** `delete_report` (the Report row; removing the file is not modelled). */
    method DeleteReport(reportId: int) returns (status: Status)
      requires Valid()
      modifies this
      ensures Valid() && session == old(session)
      ensures status == AdminRequired <==> !IsAdmin(users, session)
      ensures status == NotFound <==>
        IsAdmin(users, session) && forall i :: 0 <= i < |old(reports)| ==> old(reports)[i].id != reportId
      ensures status in {AdminRequired, NotFound, Done}
      ensures status != Done ==> State() == old(State())
      ensures status == Done ==>
        var k := ReportIndex(old(reports), reportId).value;
        State() == old(State()).(reports := old(reports)[..k] + old(reports)[k + 1..])
    {
      if !IsAdmin(users, session) {
        return AdminRequired;
      }
      var k := ReportIndex(reports, reportId);
      if k.None? {
        return NotFound;
      }
      reports := reports[..k.value] + reports[k.value + 1..];
      status := Done;
    }

    /** `delete_all_reports`: deletes the Report rows one by one. */
    method DeleteAllReports() returns (status: Status)
      requires Valid()
      modifies this
      ensures Valid() && session == old(session)
      ensures status == AdminRequired <==> !IsAdmin(users, session)
      ensures status in {AdminRequired, Done}
      ensures status != Done ==> State() == old(State())
      ensures status == Done ==> State() == old(State()).(reports := [])
    {
      if !IsAdmin(users, session) {
        return AdminRequired;
      }
      while reports != []
        invariant State() == old(State()).(reports := reports)
        invariant session == old(session)
        decreases |reports|
      {
        reports := reports[1..];
      }
      status := Done;
    }

    /** `delete_all_products`: every product, and every cart line pointing at
        one of them. Purchase lines keep their product ids. */
    method DeleteAllProducts() returns (status: Status)
      requires Valid()
      modifies this
      ensures Valid() && session == old(session)
      ensures status == AdminRequired <==> !IsAdmin(users, session)
      ensures status in {AdminRequired, Done}
      ensures status != Done ==> State() == old(State())
      ensures status == Done ==>
        State() == old(State()).(products := [],
                                 carts := WithoutProducts(old(carts), set p | p in old(products) :: p.id))
    {
      if !IsAdmin(users, session) {
        return AdminRequired;
      }
      var ids := set p | p in products :: p.id;
      DeletesKeepOneLine(carts, 0, 0, ids);
      products := [];
      carts := WithoutProducts(carts, ids);
      status := Done;
    }

    /** `delete_all_purchases`: every purchase line and every purchase event. */
    method DeleteAllPurchases() returns (status: Status)
      requires Valid()
      modifies this
      ensures Valid() && session == old(session)
      ensures status == AdminRequired <==> !IsAdmin(users, session)
      ensures status in {AdminRequired, Done}
      ensures status != Done ==> State() == old(State())
      ensures status == Done ==> State() == old(State()).(purchases := [], events := [])
    {
      if !IsAdmin(users, session) {
        return AdminRequired;
      }
      purchases := [];
      events := [];
      status := Done;
    }

    /** `toggle_admin`: flips the session user's admin flag. It is not gated, so
        it decides the admin gate for everybody else. */
    method ToggleAdmin() returns (status: Status)
      requires Valid()
      modifies this
      ensures Valid() && session == old(session)
      ensures status == LoginRequired <==> session.None?
      ensures status == NotFound <==> session.Some? && forall i :: 0 <= i < |users| ==> users[i].id != session.value
      ensures status in {LoginRequired, NotFound, Done}
      ensures status != Done ==> State() == old(State())
      ensures status == Done ==>
        && UserIndex(old(users), session.value).Some?
        && State() == old(State()).(users := ToggledAt(old(users), UserIndex(old(users), session.value).value))
        && IsAdmin(users, session) == !IsAdmin(old(users), session)
    {
      if session.None? {
        return LoginRequired;
      }
      var k := UserIndex(users, session.value);
      if k.None? {
        return NotFound;
      }
      ToggleFlipsGate(users, session.value);
      ToggleKeepsKeys(users, k.value);
      users := ToggledAt(users, k.value);
      status := Done;
    }
  }
}
